=== FILE: README.md ===
# Rule 110 simulator — a Dafny model of its core

The program evolves a one-dimensional Rule 110 cellular automaton. It loads an
initial generation of byte cells from a text file, runs a number of rounds with
one of several backends, and prints how many cells equal 1. This project models
the following parts of `src/main.rs`:

- the rule lookup `apply_rule`;
- the three CPU steppers: `simulate`, which is driven by an index list (the
  `policy` backend); `simulate_rayon`; and `simulate_simd`, which runs 16-lane
  batches and then a scalar tail;
- the per-round driver loops of `main` and the final population count;
- the sanitising half of the loader.

It also models one work item of the OpenCL kernel. The project proves that the
parts agree with each other.

Cells are Rust `u8` values, modelled as `bv8`. Because of that, the
neighbourhood code `(l << 2) | (m << 1) | r` and `apply_rule` are defined for
every byte, exactly as in the source. When all three cells are 0 or 1, the
code is `4l+2m+r` and lies in 0..7 (`Cells.CodeOfBits`). Other bytes can push
it to 8 or more (`Code(2,0,0)`), or shift bits out of the `u8` (`Code(64,0,0)`)
(`Cells.CodeOutsideBits`).

Buffers are values. A stepper takes the previous generation and the output
buffer and returns the output buffer with its written slots replaced.

Modules:

- `Cells`: the cell type, the code and the rule.
- `Steppers`: the rayon stepper, built on the range map `StepRange`, and the index-list stepper, built on the zip `ZipFrom`.
- `Vector`: the SIMD stepper. It comes both as a recursive function and as a
  method with loops over an array.
- `Driver`: rounds, runs and the count.
- `Loader`: the sanitiser and the whole pipeline.
- `Kernel`: one OpenCL work item.
- `Wrappers`: `Option` and `Result`.

Behaviour of the code worth knowing:

- `simulate` writes the k-th interior slot `out[1+k]` from the neighbourhood of
  `indices[k]` (src/main.rs:33-35). It does not write `out[indices[k]]`. So a
  reordered index list moves values to the wrong slots
  (`Steppers.ReorderedIndicesMisplace`). Only a list that begins with
  1, 2, …, n-2 gives the rule map (`Steppers.PrefixIndicesEqualsRayon`).
  Entries past position n-2 are never read, and a shorter list leaves the
  last interior slots with the values `out` already held.
- The output buffer is zeroed once, before the first round (src/main.rs:229),
  not before every round. For a generation of length 3 or more, the end cells
  still stay 0, because no CPU stepper writes index 0 or n-1.
- For a generation of length 2, the backends disagree. The loader accepts such a
  generation (the text `10`). When n < 3, `simulate` and `simulate_rayon` write
  nothing (src/main.rs:22-24, 32-33), so a round yields the zeroed `outbuf`.
  `simulate_simd` copies its input instead (src/main.rs:41-43). After one round
  the rayon backend prints 0 and the simd backend prints 1
  (`Driver.LengthTwoBackendsDiffer`, `Loader.SimulationLengthTwoDiffers`).
  Policy and rayon agree on every non-empty generation
  (`Driver.RunPolicyEqualsRayon`). Agreement of all three backends is proved for
  every length of 3 or more.

## Model

| member | source | states |
|---|---|---|
| `Cells.ApplyRule` | src/main.rs:13-19 | the result is always 0 or 1, and it is 0 exactly for the codes 0, 4 and 7 |
| `Cells.ApplyRuleIsRule110` | src/main.rs:14-19 | on codes 0..7, `apply_rule` equals bit c of the rule number 110 (the Wolfram table) |
| `Cells.CodeOfBits` | src/main.rs:26 | for cells that are 0 or 1, the shift/or code equals 4l+2m+r and is below 8 |
| `Cells.CodeOutsideBits` | src/main.rs:26 | a cell of 2 gives code 8, and a cell of 64 has its bits shifted out of the `u8` |
| `Cells.Zeros` | src/main.rs:229 | `vec![0u8; n]` has length n and every cell 0 |
| `Steppers.LastInteriorIsSaturatingSub` | src/main.rs:22 | `len.saturating_sub(2)` is the larger of 0 and n-2 |
| `Steppers.StepRange` | src/main.rs:24-28 | on an index range [lo, hi), each slot gets the rule value of its own neighbourhood and every other slot of `out` is kept |
| `Steppers.StepRangeSplit` | src/main.rs:24 | computing two adjacent sub-ranges, in either order, equals computing their union; so the result does not depend on how rayon splits the work |
| `Steppers.RayonStep` | src/main.rs:21-29 | every index 1..n-2 gets the rule value of its neighbourhood; every other slot, including the two end cells, keeps its value from `out` |
| `Steppers.ZipFrom` | src/main.rs:33-36 | from pair k on, slot j+1 gets the rule value at `indices[j]` for j below min(n-2, \|indices\|); other slots are unchanged |
| `Steppers.Simulate` | src/main.rs:31-37 | only `out[1+k]` is written, for k < min(n-2, \|indices\|), with the rule value around `indices[k]`; every used index must be in 1..n-2 |
| `Steppers.NaturalIndices` | src/main.rs:233-234 | the list built in `main` is 1, 2, ..., n-2 (empty when n < 3) |
| `Steppers.NaturalIndicesValid` | src/main.rs:233-236 | every index in that list lies in 1..n-2 |
| `Steppers.PolicyEqualsRayon` | src/main.rs:21-37 | with the list 1..=n-2, `simulate` returns exactly what `simulate_rayon` returns |
| `Steppers.PrefixIndicesEqualsRayon` | src/main.rs:31-36 | any index list that begins with 1, 2, …, n-2 is valid and makes the index-list stepper equal to the rayon map, whatever entries follow |
| `Steppers.ReorderedIndicesMisplace` | src/main.rs:31-37 | on a concrete input, the list [3,2,1] gives a different result from the rule map, because slots follow list positions |
| `Vector.Splat` | src/main.rs:55-61 | `Simd::splat(x)` is a 16-lane vector with x in every lane |
| `Vector.ShlLane` | src/main.rs:55 | a `u8` shift left by 1 or 2 is doubling once or twice with wrap-around, so high bits are lost |
| `Vector.Shl` | src/main.rs:55 | the vector shift by a splatted amount applies the `u8` shift in every lane |
| `Vector.Or` | src/main.rs:55 | the vector `\|` is the bitwise or in every lane |
| `Vector.EqMask` | src/main.rs:57-59 | `simd_eq` with a splatted constant sets exactly the lanes equal to it |
| `Vector.MaskOr` | src/main.rs:57-59 | the mask `\|` is set exactly where either mask is set |
| `Vector.Select` | src/main.rs:61 | `mask.select(t, f)` takes each lane from t where the mask is set and from f elsewhere |
| `Vector.Batch` | src/main.rs:51-61 | in every lane, the shift/or code, the `==7 \| ==4 \| ==0` mask and the 0/1 select give `apply_rule` of that lane's code |
| `Vector.BatchAt` | src/main.rs:50-62 | when `i+16 <= n-1`, the three loaded windows are in bounds and lane k holds the rule value of index i+k |
| `Vector.ScalarTail` | src/main.rs:66-70 | the tail is entered with fewer than 16 indices left, and from j it writes the rule value at each index of [j, n-1) and nothing else |
| `Vector.SimdFrom` | src/main.rs:48-70 | whole batches while `i+16 <= n-1`, then the tail, leave every index of [i, n-1) holding its rule value and every other slot unchanged |
| `Vector.SimdStep` | src/main.rs:39-71 | for n >= 3 the result equals `simulate_rayon`'s; for n < 3 it is a copy of the input |
| `Vector.SimulateSimd` | src/main.rs:39-71 | the loop version over a buffer: 1 <= i <= n-1, (i-1) % 16 == 0, and every slot below i already holds its rule value; the result equals the rayon result for n >= 3 and the input for n < 3 |
| `Driver.Round` | src/main.rs:231-251 | one stepper call on equal-length buffers keeps the buffer length |
| `Driver.Iterate` | src/main.rs:235-250 | zero rounds give back the input; after at least one round of a generation of length >= 3, the end cells are those of the output buffer |
| `Driver.Run` | src/main.rs:227-251 | zero rounds leave the loaded generation unchanged; after one round or more, a generation of length >= 3 has first and last cell 0 |
| `Driver.CountOnes` | src/main.rs:258 | the count is at most the length, and it is 0 exactly when no cell equals 1 |
| `Driver.CountOnesAppend` | src/main.rs:258 | the count of a concatenation is the sum of the counts, so the parallel reduction can split the buffer anywhere |
| `Driver.CountOnesIsLiveCells` | src/main.rs:258 | the count equals the number of positions holding 1 |
| `Driver.IterateUnfold` | src/main.rs:235-238 | a run of k > 0 rounds is one stepper call, whose result becomes both buffers, followed by k-1 rounds |
| `Driver.IterateCongruence` | src/main.rs:235-238 | two loops agree on k > 0 rounds whenever their first stepper calls agree and the remaining k-1 rounds from that result agree |
| `Driver.IterateAgree` | src/main.rs:227-251 | two backends whose stepper calls agree on every pair of buffers of the run's length reach the same generation after any number of rounds |
| `Driver.IteratePolicyEqualsRayon` | src/main.rs:232-245 | from the same non-empty buffers, the policy loop with the list `1..=end` and the rayon loop reach the same generation after any number of rounds, at every length |
| `Driver.RoundSimdEqualsRayon` | src/main.rs:240-250 | for n >= 3, one simd round and one rayon round give the same generation |
| `Driver.IterateSimdEqualsRayon` | src/main.rs:240-251 | from the same buffers of length 3 or more, the simd loop and the rayon loop reach the same generation after any number of rounds |
| `Driver.RunPolicyEqualsRayon` | src/main.rs:227-245 | for every non-empty initial generation, length 2 included, the policy and rayon runs end equal |
| `Driver.RunBackendsAgree` | src/main.rs:227-258 | for an initial generation of length >= 3, the policy, rayon and simd runs end equal and print the same count |
| `Driver.RoundKeepsBinary` | src/main.rs:14-29 | a round over buffers that hold only 0 and 1 produces only 0 and 1 |
| `Driver.IterateKeepsBinary` | src/main.rs:235-250 | the round loop keeps every cell in {0,1} |
| `Driver.RunKeepsBinary` | src/main.rs:227-251 | a run from a generation of bits yields a generation of bits, on every backend |
| `Driver.IterateAllDead` | src/main.rs:235-250 | the all-zero buffers are a fixed point of every round loop |
| `Driver.RunAllDead` | src/main.rs:227-258 | an all-zero generation of any length stays all-zero and counts 0, on every backend and for every round count |
| `Driver.OneRoundExample` | src/main.rs:227-258 | [0,1,1,1,0] has codes 3, 7, 6, so one round gives [0,1,0,1,0], which counts 2 |
| `Driver.LengthTwoBackendsDiffer` | src/main.rs:39-44 | for [1,0] and one round, policy and rayon give [0,0] but simd gives [1,0], so the counts are 0 and 1 |
| `Loader.LastOne` | src/main.rs:175 | `rposition` finds a `'1'` with no `'1'` after it, or reports none when there is none |
| `Loader.SaturatingSub` | src/main.rs:189 | `u8::saturating_sub` gives 0 when a < b, and otherwise the exact difference, at most a |
| `Loader.Sanitise` | src/main.rs:174-191 | fails with NoLiveCell exactly when there is no `'1'`, and with InvalidInput exactly when the final byte is `'1'`; otherwise it keeps pos+2 cells where pos is the last `'1'`, every cell is `saturating_sub(b'0')` of its byte, a cell is 1 exactly where the byte is `'1'`, `'0'` maps to 0, cell pos is 1, the last cell is not 1, and no dropped byte is `'1'` |
| `Loader.SanitiseBinaryText` | src/main.rs:187-190 | text made only of `'0'` and `'1'` loads as the matching generation of bits |
| `Loader.Simulation` | src/main.rs:227-259 | the run fails exactly when loading fails, with the same error; otherwise the count is at most the length, and positive with zero rounds |
| `Loader.SimulationBackendsAgree` | src/main.rs:227-259 | whenever the loaded generation has 3 or more cells, the policy, rayon and simd backends print the same result |
| `Loader.SimulationPolicyEqualsRayon` | src/main.rs:174-245 | for every raw input, the policy and rayon backends give the same result |
| `Loader.SimulationLengthTwoDiffers` | src/main.rs:174-191 | the text `10` loads as [1,0], and after one round rayon prints 0 while simd prints 1 |
| `Kernel.KernelItem` | src/main.rs:79-84 | work item gid writes only when gid < n-2, and then writes slot gid+1 with the value `apply_rule` gives there |

## Left out

- The OpenCL host code of `simulate_ocl` (src/main.rs:89-147) is left out: platform and device discovery, program build, buffer creation, enqueue and read-back are foreign calls into the `ocl` crate. Its output buffer is created without initialisation every round, so its end cells are whatever device memory held; the model has no value to give them. Only the kernel body is modelled (`Kernel.KernelItem`).
- Rayon's thread partitioning and the parallel popcount are modelled as sequential maps and folds; `Steppers.StepRangeSplit` and `Driver.CountOnesAppend` state why any split gives the same result.
- `std::simd` types become length-16 sequences with lane-wise functions.
- File I/O and size-line parsing in `read_input_file` (src/main.rs:149-172), `clap` argument parsing and `println!` output are left out; `Loader.Sanitise` takes the raw bytes after the size line as a parameter, and `Loader.Simulation` returns the count instead of printing it.
- Panics are preconditions rather than results: slicing `out[1..=end]` of an empty buffer (`Driver.CanRound`), a buffer too short for the writes, and an index outside 1..n-2 in the list given to `simulate`.
- Iteration counts and lengths are unbounded integers; `usize` overflow of `pos + 2` and of the round counter cannot happen for inputs that fit in memory and is not modelled. `Kernel.KernelItem` assumes the length and work-item ids fit in a 32-bit `uint`, as `n as u32` would otherwise truncate.

=== FILE: cells.dfy ===
/**
 * Cells of a generation and the Rule 110 lookup (src/main.rs:13-19).
 *
 * A cell is a Rust `u8`, modelled as `bv8`, so that the neighbourhood code
 * `(l << 2) | (m << 1) | r` keeps the source's meaning for every byte: the
 * shifts drop high bits. When all three cells are 0 or 1 the code is
 * `4*l + 2*m + r` and lies in 0..7 (`CodeOfBits`); other bytes can push it to 8
 * or more, or shift bits out of the byte (`CodeOutsideBits`).
 */
module Cells {

  /** A cell or a raw input byte: Rust's `u8`. */
  type Byte = bv8

  /** A live or dead cell. */
  predicate IsBit(b: Byte) {
    b == 0 || b == 1
  }

  /** Every cell of `g` is 0 or 1. */
  predicate Binary(g: seq<Byte>) {
    forall i :: 0 <= i < |g| ==> IsBit(g[i])
  }

  /** The all-dead generation of length `n` (`vec![0u8; n]`). */
  function Zeros(n: nat): (z: seq<Byte>)
    ensures |z| == n && Binary(z)
    ensures forall i :: 0 <= i < n ==> z[i] == 0
  {
    seq(n, _ => 0)
  }

  /** The neighbourhood code as the source computes it on `u8`. */
  function Code(l: Byte, m: Byte, r: Byte): Byte {
    (l << 2) | (m << 1) | r
  }

  /** `apply_rule`: dead for codes 7, 4 and 0, live for every other byte. */
  function ApplyRule(val: Byte): (r: Byte)
    ensures IsBit(r)
    ensures r == 0 <==> val == 0 || val == 4 || val == 7
  {
    if val == 7 || val == 4 || val == 0 then 0 else 1
  }

  /** Bit `c` of the rule number 110 = 0b0110_1110, least significant bit first. */
  function Rule110Bit(c: nat): Byte
    requires c < 8
  {
    ((110 as Byte) >> c) & 1
  }

  /** On the eight codes a neighbourhood of bits can produce, `apply_rule` is the Wolfram table of rule 110. */
  lemma ApplyRuleIsRule110(c: nat)
    requires c < 8
    ensures ApplyRule(c as Byte) == Rule110Bit(c)
  {
  }

  /** For cells that are bits, the byte code is `4*l + 2*m + r` and lies in 0..7. */
  lemma CodeOfBits(l: Byte, m: Byte, r: Byte)
    requires IsBit(l) && IsBit(m) && IsBit(r)
    ensures Code(l, m, r) as int == 4 * (l as int) + 2 * (m as int) + r as int
    ensures Code(l, m, r) < 8
  {
  }

  /** A cell value of 2 or more leaves the 0..7 range: a code of 8 from a left neighbour of 2, and a left 64 vanishing altogether. */
  lemma CodeOutsideBits()
    ensures Code(2, 0, 0) == 8
    ensures Code(64, 0, 0) == 0 && ApplyRule(Code(64, 0, 0)) == ApplyRule(Code(0, 0, 0))
  {
  }
}

=== FILE: driver.dfy ===
/**
 * The round loops of `main` (src/main.rs:227-251) and the population count
 * (src/main.rs:258). `outbuf` is zeroed once; each round the chosen stepper
 * overwrites part of it and `inbuf = outbuf.clone()` makes both buffers the
 * new generation.
 */
module Driver {
  import opened Cells
  import opened Steppers
  import opened Vector

  /** The CPU backends selectable with `--version`. */
  datatype Backend = Policy | Rayon | Simd

  /** Slicing `out[1..=end]` in `simulate` and `simulate_rayon` panics on an empty buffer; `simulate_simd` copies it. */
  predicate CanRound(b: Backend, n: nat) {
    b == Simd || 0 < n
  }

  /** One call of the chosen stepper with `inbuf` as input and `outbuf` as output. */
  function Round(b: Backend, input: seq<Byte>, out: seq<Byte>, indices: seq<nat>): (r: seq<Byte>)
    requires |out| == |input| && CanRound(b, |input|)
    requires b == Policy ==> ValidIndices(|input|, indices)
    ensures |r| == |out|
  {
    match b
    case Policy => Simulate(input, out, indices)
    case Rayon => RayonStep(input, out)
    case Simd => SimdStep(input, out)
  }

  /**
   * `rounds` iterations of the loop body `step; inbuf = outbuf.clone()`.
   * Nothing but interior slots is ever written, so once a generation of
   * length at least 3 has gone through one round, its end cells are those of
   * the output buffer.
   */
  function Iterate(b: Backend, inbuf: seq<Byte>, outbuf: seq<Byte>, indices: seq<nat>, rounds: nat): (g: seq<Byte>)
    requires |outbuf| == |inbuf|
    requires 0 < rounds ==> CanRound(b, |inbuf|)
    requires b == Policy ==> ValidIndices(|inbuf|, indices)
    ensures |g| == |inbuf|
    ensures rounds == 0 ==> g == inbuf
    ensures 3 <= |inbuf| && 0 < rounds ==> g[0] == outbuf[0] && g[|g| - 1] == outbuf[|outbuf| - 1]
    decreases rounds
  {
    if rounds == 0 then inbuf
    else
      var next := Round(b, inbuf, outbuf, indices);
      Iterate(b, next, next, indices, rounds - 1)
  }

  /**
   * The whole CPU run of `main`: a zeroed output buffer, the index list
   * `1..=end`, and `iters` rounds. Zero rounds leave the generation as loaded;
   * from the first round on, a generation of length at least 3 has dead ends.
   */
  function Run(b: Backend, init: seq<Byte>, iters: nat): (g: seq<Byte>)
    requires 0 < iters ==> CanRound(b, |init|)
    ensures |g| == |init|
    ensures iters == 0 ==> g == init
    ensures 3 <= |init| && 0 < iters ==> g[0] == 0 && g[|g| - 1] == 0
  {
    NaturalIndicesValid(|init|);
    var z := Zeros(|init|);
    var g := Iterate(b, init, z, NaturalIndices(|init|), iters);
    assert 3 <= |init| && 0 < iters ==> g[0] == z[0] == 0 && g[|g| - 1] == z[|z| - 1] == 0;
    g
  }

  /** `filter(|&&v| v == 1).count()`: the number of cells equal to 1. */
  function CountOnes(g: seq<Byte>): (c: nat)
    ensures c <= |g|
    ensures c == 0 <==> forall i :: 0 <= i < |g| ==> g[i] != 1
  {
    if |g| == 0 then 0 else (if g[0] == 1 then 1 else 0) + CountOnes(g[1..])
  }

  /** The count of a concatenation is the sum of the counts, so any split of the buffer among workers gives the same total. */
  lemma {:induction false} CountOnesAppend(a: seq<Byte>, b: seq<Byte>)
    ensures CountOnes(a + b) == CountOnes(a) + CountOnes(b)
  {
    if |a| == 0 {
      assert a + b == b;
    } else {
      assert (a + b)[1..] == a[1..] + b;
      CountOnesAppend(a[1..], b);
    }
  }

  /** The indices of the live cells of `g`. */
  function LiveCells(g: seq<Byte>): set<nat> {
    set i: nat | i < |g| && g[i] == 1
  }

  /** The count is the number of live positions, whatever order the cells are summed in. */
  lemma {:induction false} CountOnesIsLiveCells(g: seq<Byte>)
    ensures CountOnes(g) == |LiveCells(g)|
    decreases |g|
  {
    if |g| != 0 {
      var n := |g| - 1;
      var front := g[..n];
      assert g == front + [g[n]];
      CountOnesAppend(front, [g[n]]);
      CountOnesIsLiveCells(front);
      if g[n] == 1 {
        assert LiveCells(g) == LiveCells(front) + {n};
      } else {
        assert LiveCells(g) == LiveCells(front);
      }
    }
  }

  /** One round of the loop: the stepper's result becomes both buffers for the remaining rounds. */
  lemma IterateUnfold(b: Backend, inbuf: seq<Byte>, outbuf: seq<Byte>, indices: seq<nat>, rounds: nat)
    requires |outbuf| == |inbuf| && 0 < rounds && CanRound(b, |inbuf|)
    requires b == Policy ==> ValidIndices(|inbuf|, indices)
    ensures Iterate(b, inbuf, outbuf, indices, rounds)
         == Iterate(b, Round(b, inbuf, outbuf, indices), Round(b, inbuf, outbuf, indices), indices, rounds - 1)
  {
  }

  /** Two loops whose first rounds agree, and whose remaining rounds agree from there, agree. */
  lemma IterateCongruence(b: Backend, c: Backend, inbuf: seq<Byte>, outbuf: seq<Byte>, indices: seq<nat>, rounds: nat)
    requires |outbuf| == |inbuf| && 0 < rounds && CanRound(b, |inbuf|) && CanRound(c, |inbuf|)
    requires b == Policy ==> ValidIndices(|inbuf|, indices)
    requires c == Policy ==> ValidIndices(|inbuf|, indices)
    requires Round(b, inbuf, outbuf, indices) == Round(c, inbuf, outbuf, indices)
    requires Iterate(b, Round(c, inbuf, outbuf, indices), Round(c, inbuf, outbuf, indices), indices, rounds - 1)
          == Iterate(c, Round(c, inbuf, outbuf, indices), Round(c, inbuf, outbuf, indices), indices, rounds - 1)
    ensures Iterate(b, inbuf, outbuf, indices, rounds) == Iterate(c, inbuf, outbuf, indices, rounds)
  {
    IterateUnfold(b, inbuf, outbuf, indices, rounds);
    IterateUnfold(c, inbuf, outbuf, indices, rounds);
  }

  /** For n >= 3, a simd round and a rayon round give the same generation, whatever index list is carried along. */
  lemma RoundSimdEqualsRayon(input: seq<Byte>, out: seq<Byte>, indices: seq<nat>)
    requires 3 <= |input| && |out| == |input|
    ensures Round(Simd, input, out, indices) == Round(Rayon, input, out, indices)
  {
  }

  /** Two steppers that agree on every pair of buffers of length `n`. */
  ghost predicate RoundsAgree(b: Backend, c: Backend, n: nat, indices: seq<nat>)
    requires CanRound(b, n) && CanRound(c, n)
    requires b == Policy ==> ValidIndices(n, indices)
    requires c == Policy ==> ValidIndices(n, indices)
  {
    forall input: seq<Byte>, out: seq<Byte> | |input| == n && |out| == n :: Round(b, input, out, indices) == Round(c, input, out, indices)
  }

  /** Loops whose steppers agree at every round reach the same generation. */
  lemma {:induction false} IterateAgree(b: Backend, c: Backend, inbuf: seq<Byte>, outbuf: seq<Byte>, indices: seq<nat>, rounds: nat)
    requires |outbuf| == |inbuf| && CanRound(b, |inbuf|) && CanRound(c, |inbuf|)
    requires b == Policy ==> ValidIndices(|inbuf|, indices)
    requires c == Policy ==> ValidIndices(|inbuf|, indices)
    requires RoundsAgree(b, c, |inbuf|, indices)
    ensures Iterate(b, inbuf, outbuf, indices, rounds) == Iterate(c, inbuf, outbuf, indices, rounds)
    decreases rounds
  {
    if 0 < rounds {
      var next := Round(c, inbuf, outbuf, indices);
      IterateAgree(b, c, next, next, indices, rounds - 1);
      IterateCongruence(b, c, inbuf, outbuf, indices, rounds);
    }
  }

  /** From the same buffers of length 3 or more, the simd loop and the rayon loop reach the same generation. */
  lemma IterateSimdEqualsRayon(inbuf: seq<Byte>, outbuf: seq<Byte>, indices: seq<nat>, rounds: nat)
    requires 3 <= |inbuf| && |outbuf| == |inbuf|
    ensures Iterate(Simd, inbuf, outbuf, indices, rounds) == Iterate(Rayon, inbuf, outbuf, indices, rounds)
  {
    forall input: seq<Byte>, out: seq<Byte> | |input| == |inbuf| && |out| == |inbuf|
      ensures Round(Simd, input, out, indices) == Round(Rayon, input, out, indices)
    {
      RoundSimdEqualsRayon(input, out, indices);
    }
    IterateAgree(Simd, Rayon, inbuf, outbuf, indices, rounds);
  }

  /** From the same non-empty buffers, the policy loop with the list `1..=end` and the rayon loop reach the same generation, at every length. */
  lemma IteratePolicyEqualsRayon(inbuf: seq<Byte>, outbuf: seq<Byte>, rounds: nat)
    requires 0 < |inbuf| && |outbuf| == |inbuf|
    ensures ValidIndices(|inbuf|, NaturalIndices(|inbuf|))
    ensures Iterate(Policy, inbuf, outbuf, NaturalIndices(|inbuf|), rounds) == Iterate(Rayon, inbuf, outbuf, NaturalIndices(|inbuf|), rounds)
  {
    var ix := NaturalIndices(|inbuf|);
    NaturalIndicesValid(|inbuf|);
    forall input: seq<Byte>, out: seq<Byte> | |input| == |inbuf| && |out| == |inbuf|
      ensures Round(Policy, input, out, ix) == Round(Rayon, input, out, ix)
    {
      PolicyEqualsRayon(input, out);
    }
    IterateAgree(Policy, Rayon, inbuf, outbuf, ix, rounds);
  }

  /** For every non-empty initial generation, including the length-2 ones the loader accepts, the policy and rayon runs end equal. */
  lemma RunPolicyEqualsRayon(init: seq<Byte>, iters: nat)
    requires 0 < |init|
    ensures Run(Policy, init, iters) == Run(Rayon, init, iters)
  {
    IteratePolicyEqualsRayon(init, Zeros(|init|), iters);
  }

  /** For an initial generation of length at least 3, the policy, rayon and simd runs end in the same generation and report the same count. */
  lemma RunBackendsAgree(init: seq<Byte>, iters: nat)
    requires 3 <= |init|
    ensures Run(Policy, init, iters) == Run(Rayon, init, iters) == Run(Simd, init, iters)
    ensures CountOnes(Run(Policy, init, iters)) == CountOnes(Run(Rayon, init, iters)) == CountOnes(Run(Simd, init, iters))
  {
    NaturalIndicesValid(|init|);
    IteratePolicyEqualsRayon(init, Zeros(|init|), iters);
    IterateSimdEqualsRayon(init, Zeros(|init|), NaturalIndices(|init|), iters);
  }

  /** A round whose input and output buffers both hold only bits yields only bits. */
  lemma RoundKeepsBinary(b: Backend, input: seq<Byte>, out: seq<Byte>, indices: seq<nat>)
    requires |out| == |input| && CanRound(b, |input|)
    requires b == Policy ==> ValidIndices(|input|, indices)
    requires Binary(input) && Binary(out)
    ensures Binary(Round(b, input, out, indices))
  {
    var r := Round(b, input, out, indices);
    forall j | 0 <= j < |r|
      ensures IsBit(r[j])
    {
    }
  }

  /** Runs from a generation of bits stay within bits, for every backend and round count. */
  lemma {:induction false} IterateKeepsBinary(b: Backend, inbuf: seq<Byte>, outbuf: seq<Byte>, indices: seq<nat>, rounds: nat)
    requires |outbuf| == |inbuf|
    requires 0 < rounds ==> CanRound(b, |inbuf|)
    requires b == Policy ==> ValidIndices(|inbuf|, indices)
    requires Binary(inbuf) && Binary(outbuf)
    ensures Binary(Iterate(b, inbuf, outbuf, indices, rounds))
    decreases rounds
  {
    if 0 < rounds {
      RoundKeepsBinary(b, inbuf, outbuf, indices);
      var next := Round(b, inbuf, outbuf, indices);
      IterateKeepsBinary(b, next, next, indices, rounds - 1);
      IterateUnfold(b, inbuf, outbuf, indices, rounds);
    }
  }

  /** A loaded generation of bits stays a generation of bits. */
  lemma RunKeepsBinary(b: Backend, init: seq<Byte>, iters: nat)
    requires 0 < iters ==> CanRound(b, |init|)
    requires Binary(init)
    ensures Binary(Run(b, init, iters))
  {
    NaturalIndicesValid(|init|);
    IterateKeepsBinary(b, init, Zeros(|init|), NaturalIndices(|init|), iters);
  }

  /** The dead generation is a fixed point of every round loop. */
  lemma {:induction false} IterateAllDead(b: Backend, n: nat, indices: seq<nat>, rounds: nat)
    requires 0 < rounds ==> CanRound(b, n)
    requires b == Policy ==> ValidIndices(n, indices)
    ensures Iterate(b, Zeros(n), Zeros(n), indices, rounds) == Zeros(n)
    decreases rounds
  {
    if 0 < rounds {
      var next := Round(b, Zeros(n), Zeros(n), indices);
      forall j | 0 <= j < n
        ensures next[j] == 0
      {
      }
      assert next == Zeros(n);
      IterateAllDead(b, n, indices, rounds - 1);
    }
  }

  /** An all-dead initial generation of any length stays dead, so every backend reports 0. */
  lemma RunAllDead(b: Backend, n: nat, iters: nat)
    requires 0 < iters ==> CanRound(b, n)
    ensures Run(b, Zeros(n), iters) == Zeros(n)
    ensures CountOnes(Run(b, Zeros(n), iters)) == 0
  {
    NaturalIndicesValid(n);
    IterateAllDead(b, n, NaturalIndices(n), iters);
  }

  /** [0,1,1,1,0]: the codes at indices 1, 2, 3 are 3, 7, 6, so one round gives [0,1,0,1,0] with two live cells, on every backend. */
  lemma OneRoundExample(b: Backend)
    ensures Run(b, [0, 1, 1, 1, 0], 1) == [0, 1, 0, 1, 0]
    ensures CountOnes(Run(b, [0, 1, 1, 1, 0], 1)) == 2
  {
    var init: seq<Byte> := [0, 1, 1, 1, 0];
    RunBackendsAgree(init, 1);
    var r := RayonStep(init, Zeros(5));
    assert Code(0, 1, 1) == 3 && Code(1, 1, 1) == 7 && Code(1, 1, 0) == 6;
    assert RuleAt(init, 1) == 1 && RuleAt(init, 2) == 0 && RuleAt(init, 3) == 1;
    assert r == [0, 1, 0, 1, 0];
    assert Round(Rayon, init, Zeros(5), NaturalIndices(5)) == r;
    assert Run(Rayon, init, 1) == Iterate(Rayon, r, r, NaturalIndices(5), 0) == r;
  }

  /**
   * A generation of length 2 has no interior. `simulate` and `simulate_rayon`
   * write nothing, so a round leaves the zeroed output buffer; `simulate_simd`
   * copies its input instead. The backends then report different counts.
   */
  lemma LengthTwoBackendsDiffer()
    ensures Run(Policy, [1, 0], 1) == [0, 0] && Run(Rayon, [1, 0], 1) == [0, 0]
    ensures Run(Simd, [1, 0], 1) == [1, 0]
    ensures CountOnes(Run(Rayon, [1, 0], 1)) == 0 && CountOnes(Run(Simd, [1, 0], 1)) == 1
  {
    var z := Zeros(2);
    assert RayonStep([1, 0], z) == z;
    assert Simulate([1, 0], z, NaturalIndices(2)) == z;
  }
}

=== FILE: kernel.dfy ===
/**
 * One work item of the OpenCL kernel `simulate_transform` (src/main.rs:79-84).
 * The host side of the device backend is not modelled; this states only that
 * each work item computes the rule of `apply_rule` for its own interior slot.
 */
module Kernel {
  import opened Wrappers
  import opened Cells
  import opened Steppers

  /**
   * Work item `gid`: index `i = gid + 1`, skipped when `i >= n - 1`,
   * otherwise the pair (slot, value) it stores. `cc` is a `uchar`, so the
   * promoted shifts are truncated back to 8 bits. The host enqueues
   * `n.saturating_sub(2)` work items, so every interior index is written
   * exactly once and the two end cells never.
   */
  function KernelItem(input: seq<Byte>, gid: nat): (w: Option<(nat, Byte)>)
    requires 0 < |input| < 0x1_0000_0000 && gid + 1 < 0x1_0000_0000
    ensures w.Some? <==> gid < LastInterior(|input|)
    ensures w.Some? ==> w.value == (gid + 1, RuleAt(input, gid + 1))
  {
    var i := gid + 1;
    if i >= |input| - 1 then None
    else
      var cc: Byte := (input[i - 1] << 2) | (input[i] << 1) | input[i + 1];
      var val: Byte := if cc == 7 || cc == 4 || cc == 0 then 0 else 1;
      Some((i, val))
  }
}

=== FILE: loader.dfy ===
/**
 * The sanitising half of `read_input_file` (src/main.rs:174-191) and the
 * pipeline of `main` that feeds its result to a backend and counts the live
 * cells. The raw bytes are those read after the size line; each
 * `process::exit(1)` becomes a `LoadError`.
 */
module Loader {
  import opened Wrappers
  import opened Cells
  import opened Driver

  /** The byte `b'0'`. */
  const Zero: Byte := 48
  /** The byte `b'1'`. */
  const One: Byte := 49

  /** Why the loader exits: no `'1'` at all (it prints 0), or a `'1'` as the final byte (it prints "Invalid input file."). */
  datatype LoadError = NoLiveCell | InvalidInput

  /** `raw.iter().rposition(|&b| b == b'1')`: the position of the last `'1'`. */
  function LastOne(raw: seq<Byte>): (p: Option<nat>)
    ensures p.None? <==> forall i :: 0 <= i < |raw| ==> raw[i] != One
    ensures p.Some? ==> p.value < |raw| && raw[p.value] == One
    ensures p.Some? ==> forall i :: p.value < i < |raw| ==> raw[i] != One
  {
    if |raw| == 0 then None
    else if raw[|raw| - 1] == One then Some(|raw| - 1)
    else LastOne(raw[..|raw| - 1])
  }

  /** `u8::saturating_sub`. */
  function SaturatingSub(a: Byte, b: Byte): (r: Byte)
    ensures a < b ==> r == 0
    ensures b <= a ==> r <= a && r + b == a
  {
    if a >= b then a - b else 0
  }

  /**
   * The sanitiser: keep the bytes up to one past the last `'1'` and map each
   * with `saturating_sub(b'0')`. It fails when there is no `'1'`, and when the
   * last `'1'` is the final byte, so that no cell can follow it.
   */
  function Sanitise(raw: seq<Byte>): (r: Result<seq<Byte>, LoadError>)
    ensures r == Failure(NoLiveCell) <==> forall i :: 0 <= i < |raw| ==> raw[i] != One
    ensures r == Failure(InvalidInput) <==> 0 < |raw| && raw[|raw| - 1] == One
    ensures r.Success? ==> 2 <= |r.value| <= |raw| && LastOne(raw) == Some(|r.value| - 2)
    ensures r.Success? ==> forall i :: 0 <= i < |r.value| ==> (r.value[i] == 1 <==> raw[i] == One)
    ensures r.Success? ==> forall i :: 0 <= i < |r.value| && raw[i] == Zero ==> r.value[i] == 0
    ensures r.Success? ==> forall i :: 0 <= i < |r.value| ==> r.value[i] == SaturatingSub(raw[i], Zero)
    ensures r.Success? ==> r.value[|r.value| - 2] == 1 && r.value[|r.value| - 1] != 1
    ensures r.Success? ==> forall i :: |r.value| <= i < |raw| ==> raw[i] != One
  {
    match LastOne(raw)
    case None => Failure(NoLiveCell)
    case Some(pos) =>
      if pos + 2 > |raw| then Failure(InvalidInput)
      else Success(seq(pos + 2, i requires 0 <= i < pos + 2 => SaturatingSub(raw[i], Zero)))
  }

  /** Raw text made of `'0'` and `'1'` only. */
  predicate BinaryText(raw: seq<Byte>) {
    forall i :: 0 <= i < |raw| ==> raw[i] == Zero || raw[i] == One
  }

  /** From text of `'0'` and `'1'`, the sanitiser yields a generation of bits: the text's digits up to one past the last `'1'`. */
  lemma SanitiseBinaryText(raw: seq<Byte>)
    requires BinaryText(raw)
    ensures Sanitise(raw).Success? ==> Binary(Sanitise(raw).value)
    ensures Sanitise(raw).Success? ==> forall i :: 0 <= i < |Sanitise(raw).value| ==> Sanitise(raw).value[i] == (if raw[i] == One then 1 else 0)
  {
  }

  /** The observable result of `main` with a CPU backend: the loader's error, or the count of live cells after `iters` rounds. */
  function Simulation(raw: seq<Byte>, b: Backend, iters: nat): (r: Result<nat, LoadError>)
    ensures r.Failure? <==> Sanitise(raw).Failure?
    ensures r.Failure? ==> r.error == Sanitise(raw).error
    ensures r.Success? ==> r.value <= |Sanitise(raw).value|
    ensures r.Success? && iters == 0 ==> 0 < r.value
  {
    match Sanitise(raw)
    case Failure(e) => Failure(e)
    case Success(init) =>
      var count := CountOnes(Run(b, init, iters));
      Success(count)
  }

  /** Whenever the loaded generation has at least 3 cells, the three CPU backends print the same count. */
  lemma SimulationBackendsAgree(raw: seq<Byte>, iters: nat)
    requires Sanitise(raw).Success? ==> 3 <= |Sanitise(raw).value|
    ensures Simulation(raw, Policy, iters) == Simulation(raw, Rayon, iters) == Simulation(raw, Simd, iters)
  {
    if Sanitise(raw).Success? {
      RunBackendsAgree(Sanitise(raw).value, iters);
    }
  }

  /** For every raw input, the policy and rayon backends print the same result: the loader never yields an empty generation. */
  lemma SimulationPolicyEqualsRayon(raw: seq<Byte>, iters: nat)
    ensures Simulation(raw, Policy, iters) == Simulation(raw, Rayon, iters)
  {
    if Sanitise(raw).Success? {
      RunPolicyEqualsRayon(Sanitise(raw).value, iters);
    }
  }

  /** The text "10" loads as [1, 0]; after one round the rayon backend prints 0 and the simd backend prints 1. */
  lemma SimulationLengthTwoDiffers()
    ensures Sanitise([One, Zero]) == Success([1, 0])
    ensures Simulation([One, Zero], Rayon, 1) == Success(0)
    ensures Simulation([One, Zero], Simd, 1) == Success(1)
  {
    assert LastOne([One, Zero]) == Some(0);
    assert Sanitise([One, Zero]).value == [1, 0];
    LengthTwoBackendsDiffer();
  }
}

=== FILE: steppers.dfy ===
/**
 * The scalar steppers of src/main.rs: `simulate_rayon` (lines 21-29) and the
 * index-list stepper `simulate` (lines 31-37). A stepper reads the previous
 * generation `input` and returns the output buffer `out` with some slots
 * overwritten; buffers are values here, so "unchanged" slots are the ones
 * copied from `out`.
 */
module Steppers {
  import opened Cells

  /** `len.saturating_sub(2)`: the last interior index, or 0 when there is none. */
  function LastInterior(n: nat): nat {
    if n < 2 then 0 else n - 2
  }

  /** `LastInterior` is the saturating difference: the larger of 0 and n - 2. */
  lemma LastInteriorIsSaturatingSub(n: nat)
    ensures LastInterior(n) <= n && n <= LastInterior(n) + 2
    ensures LastInterior(n) == 0 || LastInterior(n) + 2 == n
  {
  }

  /** The next value of interior cell `i`, from the previous generation's neighbourhood. */
  function RuleAt(input: seq<Byte>, i: int): Byte
    requires 1 <= i < |input| - 1
  {
    ApplyRule(Code(input[i - 1], input[i], input[i + 1]))
  }

  /** `out` with every slot of the index range [lo, hi) replaced by its rule value. */
  function StepRange(input: seq<Byte>, out: seq<Byte>, lo: int, hi: int): (r: seq<Byte>)
    requires 0 <= lo <= hi <= |out|
    requires lo < hi ==> 1 <= lo && hi < |input|
    ensures |r| == |out|
    ensures forall j :: lo <= j < hi ==> r[j] == RuleAt(input, j)
    ensures forall j :: 0 <= j < |out| && !(lo <= j < hi) ==> r[j] == out[j]
  {
    seq(|out|, j requires 0 <= j < |out| => if lo <= j < hi then RuleAt(input, j) else out[j])
  }

  /**
   * Computing two adjacent ranges one after the other is computing their union:
   * the output of one sub-range is never read by another, so the way rayon
   * splits the interior among workers cannot change the result.
   */
  lemma StepRangeSplit(input: seq<Byte>, out: seq<Byte>, lo: int, mid: int, hi: int)
    requires 1 <= lo <= mid <= hi <= |out|
    requires lo < hi ==> hi < |input|
    ensures StepRange(input, StepRange(input, out, lo, mid), mid, hi) == StepRange(input, out, lo, hi)
    ensures StepRange(input, StepRange(input, out, mid, hi), lo, mid) == StepRange(input, out, lo, hi)
  {
  }

  /**
   * `simulate_rayon`: every interior index 1..n-2 gets its rule value, every
   * other slot of `out` (in particular the first and the last) is left alone.
   * Slicing `out[1..=end]` panics unless `end < |out|`.
   */
  function RayonStep(input: seq<Byte>, out: seq<Byte>): (r: seq<Byte>)
    requires LastInterior(|input|) < |out|
    ensures |r| == |out|
    ensures forall i :: 1 <= i <= |input| - 2 ==> r[i] == RuleAt(input, i)
    ensures forall j :: 0 <= j < |out| && !(1 <= j <= |input| - 2) ==> r[j] == out[j]
  {
    StepRange(input, out, 1, LastInterior(|input|) + 1)
  }

  /** The number of (slot, index) pairs `out[1..=end].iter_mut().zip(indices)` yields. */
  function Pairs(n: nat, indices: seq<nat>): nat {
    if LastInterior(n) <= |indices| then LastInterior(n) else |indices|
  }

  /** Every index the zip reaches is interior, as the reads `input[idx - 1]` and `input[idx + 1]` demand. */
  predicate ValidIndices(n: nat, indices: seq<nat>) {
    forall k :: 0 <= k < Pairs(n, indices) ==> 1 <= indices[k] <= n - 2
  }

  /** The zip loop of `simulate` from pair `k` on: slot `1 + k` receives the rule value at `indices[k]`. */
  function ZipFrom(input: seq<Byte>, out: seq<Byte>, indices: seq<nat>, k: nat): (r: seq<Byte>)
    requires LastInterior(|input|) < |out|
    requires ValidIndices(|input|, indices)
    requires k <= Pairs(|input|, indices)
    ensures |r| == |out|
    ensures forall j :: k + 1 <= j <= Pairs(|input|, indices) ==> r[j] == RuleAt(input, indices[j - 1])
    ensures forall j :: 0 <= j < |out| && !(k + 1 <= j <= Pairs(|input|, indices)) ==> r[j] == out[j]
    decreases Pairs(|input|, indices) - k
  {
    if k == Pairs(|input|, indices) then out
    else ZipFrom(input, out[1 + k := RuleAt(input, indices[k])], indices, k + 1)
  }

  /**
   * `simulate`: the k-th slot of the interior, `out[1 + k]`, takes the rule
   * value of the neighbourhood around `indices[k]` — the slot written is fixed
   * by the position in the list, not by the index value. Slots past the
   * shorter of the interior and the list are left alone.
   */
  function Simulate(input: seq<Byte>, out: seq<Byte>, indices: seq<nat>): (r: seq<Byte>)
    requires LastInterior(|input|) < |out|
    requires ValidIndices(|input|, indices)
    ensures |r| == |out|
    ensures forall k :: 0 <= k < Pairs(|input|, indices) ==> r[1 + k] == RuleAt(input, indices[k])
    ensures forall j :: 0 <= j < |out| && !(1 <= j <= Pairs(|input|, indices)) ==> r[j] == out[j]
  {
    ZipFrom(input, out, indices, 0)
  }

  /** `(1..=end).collect()`: the index list `main` hands to `simulate`. */
  function NaturalIndices(n: nat): (ix: seq<nat>)
    ensures |ix| == LastInterior(n)
    ensures forall k :: 0 <= k < |ix| ==> ix[k] == k + 1
  {
    seq(LastInterior(n), k => k + 1)
  }

  /** The natural index list is always valid for its generation length. */
  lemma NaturalIndicesValid(n: nat)
    ensures ValidIndices(n, NaturalIndices(n))
  {
  }

  /** With the index list `main` builds, `simulate` computes exactly what `simulate_rayon` computes. */
  lemma PolicyEqualsRayon(input: seq<Byte>, out: seq<Byte>)
    requires LastInterior(|input|) < |out|
    ensures ValidIndices(|input|, NaturalIndices(|input|))
    ensures Simulate(input, out, NaturalIndices(|input|)) == RayonStep(input, out)
  {
    NaturalIndicesValid(|input|);
    var ix := NaturalIndices(|input|);
    var p := Simulate(input, out, ix);
    var q := RayonStep(input, out);
    forall j | 0 <= j < |out|
      ensures p[j] == q[j]
    {
      if 1 <= j <= Pairs(|input|, ix) {
        assert ix[j - 1] == j;
      }
    }
  }

  /**
   * Any list that begins with 1, 2, …, n-2 gives the rule map, whatever
   * follows: the zip stops after the n-2 interior slots, so later entries
   * are never read.
   */
  lemma PrefixIndicesEqualsRayon(input: seq<Byte>, out: seq<Byte>, indices: seq<nat>)
    requires LastInterior(|input|) < |out|
    requires LastInterior(|input|) <= |indices|
    requires forall k :: 0 <= k < LastInterior(|input|) ==> indices[k] == k + 1
    ensures ValidIndices(|input|, indices)
    ensures Simulate(input, out, indices) == RayonStep(input, out)
  {
    var p := Simulate(input, out, indices);
    var q := RayonStep(input, out);
    forall j | 0 <= j < |out|
      ensures p[j] == q[j]
    {
      if 1 <= j <= Pairs(|input|, indices) {
        assert indices[j - 1] == j;
      }
    }
  }

  /**
   * A reordered index list does not reorder the writes: on [0,0,0,1,0] the
   * list [3,2,1] stores the value of index 3 into slot 1, so the result is not
   * the rule applied per index.
   */
  lemma ReorderedIndicesMisplace()
    ensures ValidIndices(5, [3, 2, 1])
    ensures Simulate([0, 0, 0, 1, 0], Zeros(5), [3, 2, 1]) == [0, 1, 1, 0, 0]
    ensures RayonStep([0, 0, 0, 1, 0], Zeros(5)) == [0, 0, 1, 1, 0]
  {
    var input: seq<Byte> := [0, 0, 0, 1, 0];
    var s := Simulate(input, Zeros(5), [3, 2, 1]);
    var r := RayonStep(input, Zeros(5));
    assert RuleAt(input, 1) == 0 && RuleAt(input, 2) == 1 && RuleAt(input, 3) == 1;
    assert s == [0, 1, 1, 0, 0];
    assert r == [0, 0, 1, 1, 0];
  }
}

=== FILE: vector.dfy ===
/**
 * `simulate_simd` (src/main.rs:39-71): 16-lane batches over the interior,
 * then a scalar tail, and a plain copy of the input when the generation is
 * shorter than 3. A vector is a length-16 sequence and each `std::simd`
 * operation used by the source is a lane-wise function.
 */
module Vector {
  import opened Cells
  import opened Steppers

  /** `Simd<u8, 16>`: the number of lanes of a batch. */
  const Lanes: nat := 16

  /** A value of `Simd<u8, 16>`. */
  predicate IsVector(v: seq<Byte>) {
    |v| == Lanes
  }

  /** `Simd::splat(x)`. */
  function Splat(x: Byte): (v: seq<Byte>)
    ensures IsVector(v)
    ensures forall k :: 0 <= k < Lanes ==> v[k] == x
  {
    seq(Lanes, _ => x)
  }

  /** `<<` on one `u8` lane: doubling `s` times, with the bits past the top lost (wrapping `u8` addition). */
  function ShlLane(b: Byte, s: nat): (r: Byte)
    requires s <= 2
    ensures s == 0 ==> r == b
    ensures s == 1 ==> r == b + b
    ensures s == 2 ==> r == (b + b) + (b + b)
  {
    b << s
  }

  /** Lane-wise `<<` by a splatted amount. */
  function Shl(v: seq<Byte>, s: nat): (r: seq<Byte>)
    requires IsVector(v) && s <= 2
    ensures IsVector(r)
    ensures forall k :: 0 <= k < Lanes ==> r[k] == ShlLane(v[k], s)
  {
    seq(Lanes, k requires 0 <= k < Lanes => ShlLane(v[k], s))
  }

  /** Lane-wise `|`. */
  function Or(a: seq<Byte>, b: seq<Byte>): (r: seq<Byte>)
    requires IsVector(a) && IsVector(b)
    ensures IsVector(r)
    ensures forall k :: 0 <= k < Lanes ==> r[k] == a[k] | b[k]
  {
    seq(Lanes, k requires 0 <= k < Lanes => a[k] | b[k])
  }

  /** `simd_eq` against a splatted constant: a lane mask. */
  function EqMask(v: seq<Byte>, x: Byte): (m: seq<bool>)
    requires IsVector(v)
    ensures |m| == Lanes
    ensures forall k :: 0 <= k < Lanes ==> (m[k] <==> v[k] == x)
  {
    seq(Lanes, k requires 0 <= k < Lanes => v[k] == x)
  }

  /** `|` on masks. */
  function MaskOr(a: seq<bool>, b: seq<bool>): (m: seq<bool>)
    requires |a| == Lanes && |b| == Lanes
    ensures |m| == Lanes
    ensures forall k :: 0 <= k < Lanes ==> (m[k] <==> a[k] || b[k])
  {
    seq(Lanes, k requires 0 <= k < Lanes => a[k] || b[k])
  }

  /** `mask.select(t, f)`: lane from `t` where the mask is set, from `f` elsewhere. */
  function Select(mask: seq<bool>, t: seq<Byte>, f: seq<Byte>): (r: seq<Byte>)
    requires |mask| == Lanes && IsVector(t) && IsVector(f)
    ensures IsVector(r)
    ensures forall k :: 0 <= k < Lanes ==> r[k] == (if mask[k] then t[k] else f[k])
  {
    seq(Lanes, k requires 0 <= k < Lanes => if mask[k] then t[k] else f[k])
  }

  /**
   * One batch from the three overlapping windows: the shift/or code, the mask
   * `== 7 | == 4 | == 0` and the 0/1 select agree lane by lane with `apply_rule`.
   */
  function Batch(left: seq<Byte>, mid: seq<Byte>, right: seq<Byte>): (val: seq<Byte>)
    requires IsVector(left) && IsVector(mid) && IsVector(right)
    ensures IsVector(val)
    ensures forall k :: 0 <= k < Lanes ==> val[k] == ApplyRule(Code(left[k], mid[k], right[k]))
  {
    var cc := Or(Or(Shl(left, 2), Shl(mid, 1)), right);
    var mask := MaskOr(MaskOr(EqMask(cc, 7), EqMask(cc, 4)), EqMask(cc, 0));
    Select(mask, Splat(0), Splat(1))
  }

  /** What `simulate_simd` needs of its buffers: equal lengths for the copy, room for every interior store otherwise. */
  predicate SimdFits(n: nat, outLen: nat) {
    if n < 3 then outLen == n else n - 1 <= outLen
  }

  /** The batch starting at interior index `i`, loaded from `input[i-1..]`, `input[i..]` and `input[i+1..]`. */
  function BatchAt(input: seq<Byte>, i: nat): (val: seq<Byte>)
    requires 1 <= i && i + Lanes <= |input| - 1
    ensures IsVector(val)
    ensures forall k :: 0 <= k < Lanes ==> val[k] == RuleAt(input, i + k)
  {
    Batch(input[i - 1 .. i - 1 + Lanes], input[i .. i + Lanes], input[i + 1 .. i + 1 + Lanes])
  }

  /**
   * The scalar tail loop `for j in i..n - 1`, from its current index `j`: the
   * rule value at each remaining interior index. It is entered only once no
   * whole batch fits, so fewer than `Lanes` indices remain.
   */
  function ScalarTail(input: seq<Byte>, out: seq<Byte>, j: nat): (r: seq<Byte>)
    requires 3 <= |input| && |input| - 1 <= |out| && 1 <= j <= |input| - 1
    requires |input| - 1 - j < Lanes
    ensures r == StepRange(input, out, j, |input| - 1)
    decreases |input| - 1 - j
  {
    if j < |input| - 1 then
      var r := ScalarTail(input, out[j := RuleAt(input, j)], j + 1);
      assert StepRange(input, out[j := RuleAt(input, j)], j + 1, |input| - 1) == StepRange(input, out, j, |input| - 1);
      r
    else
      out
  }

  /**
   * The batch loop `while i + lanes <= n - 1` from index `i`: whole batches
   * while they fit (so every load and store stays in bounds), then the scalar
   * tail; together they leave each index of [i, n-1) holding its rule value
   * and every other slot as it was.
   */
  function SimdFrom(input: seq<Byte>, out: seq<Byte>, i: nat): (r: seq<Byte>)
    requires 3 <= |input| && |input| - 1 <= |out| && 1 <= i <= |input| - 1
    ensures r == StepRange(input, out, i, |input| - 1)
    decreases |input| - i
  {
    if i + Lanes <= |input| - 1 then
      var stored := out[..i] + BatchAt(input, i) + out[i + Lanes..];
      assert stored == StepRange(input, out, i, i + Lanes);
      StepRangeSplit(input, out, i, i + Lanes, |input| - 1);
      SimdFrom(input, stored, i + Lanes)
    else
      ScalarTail(input, out, i)
  }

  /** `simulate_simd`: the input copied when `n < 3`, and otherwise exactly the result of `simulate_rayon`. */
  function SimdStep(input: seq<Byte>, out: seq<Byte>): (r: seq<Byte>)
    requires SimdFits(|input|, |out|)
    ensures |input| < 3 ==> r == input
    ensures 3 <= |input| ==> r == RayonStep(input, out)
  {
    if |input| < 3 then input else SimdFrom(input, out, 1)
  }

  /**
   * `simulate_simd` on a mutable buffer, loop for loop. The batch loop keeps
   * `i` one past a whole number of batches, with every slot below `i` already
   * holding its rule value; the tail finishes the interior one index at a time.
   */
  method SimulateSimd(input: seq<Byte>, out: seq<Byte>) returns (r: seq<Byte>)
    requires SimdFits(|input|, |out|)
    ensures |input| < 3 ==> r == input
    ensures 3 <= |input| ==> r == RayonStep(input, out)
    ensures r == SimdStep(input, out)
  {
    var n := |input|;
    if n < 3 {
      return input;
    }
    var buf := new Byte[|out|](j requires 0 <= j < |out| => out[j]);
    var i := 1;
    while i + Lanes <= n - 1
      invariant 1 <= i <= n - 1 && (i - 1) % Lanes == 0
      invariant forall j :: 1 <= j < i ==> buf[j] == RuleAt(input, j)
      invariant forall j :: 0 <= j < buf.Length && !(1 <= j < i) ==> buf[j] == out[j]
      decreases n - i
    {
      var val := BatchAt(input, i);
      forall k | 0 <= k < Lanes {
        buf[i + k] := val[k];
      }
      i := i + Lanes;
    }
    assert n - 1 - i < Lanes;
    var j := i;
    while j < n - 1
      invariant i <= j <= n - 1
      invariant forall m :: 1 <= m < j ==> buf[m] == RuleAt(input, m)
      invariant forall m :: 0 <= m < buf.Length && !(1 <= m < j) ==> buf[m] == out[m]
      decreases n - 1 - j
    {
      buf[j] := RuleAt(input, j);
      j := j + 1;
    }
    r := buf[..];
    assert r == RayonStep(input, out);
  }
}

=== FILE: wrappers.dfy ===
/** Option and Result datatypes for the model's partial operations. */
module Wrappers {

  /** `Option<T>` in Rust: `rposition` and similar searches return one. */
  datatype Option<+T> = None | Some(value: T)

  /** A value, or the reason the program gave up. */
  datatype Result<+R, +E> = Success(value: R) | Failure(error: E)
}
